=== FILE: README.md ===
# Nepal map project locator, modelled in Dafny

A model of the `NepalMap` page component (`components/nepal-map.tsx`): a map of
Nepal that overlays a boundary document (GeoJSON) and user-managed project
markers, and keeps a viewport in step with clicks in the project list.
With the JSX and the Leaflet calls stripped away, the component is a small
sequential state machine plus a few pure lookups, and the model follows that
shape.

- `Categories` holds the five project types and the marker icon lookup
  (`getProjectIcon`), with its colour and emoji tables and its fallback to
  `other`. It also holds the tooltip border colour chain and the sidebar glyph,
  and proves both agree with one per-category `Palette` table.
- `Features` holds the overlay's per-feature behaviour: the base path style,
  `setStyle` as a field-wise merge of an optional-field patch, the
  mouseover/mouseout patches and their replay over any mouse-event sequence,
  and the popup text joined from a property bag.
- `Projects` holds the project record, the creation form and its submit guard,
  the record a submission creates, and removal by id (`filter`).
- `Layers` holds the layer-selector `switch` and the assignment after it that
  always fetches the provinces file.
- `MapPage` holds the page state, the handlers (add, delete, focus, toggle,
  form edits, layer change, load success and failure), which events the page
  offers in a state, `Step`/`Run` over event sequences, and the render-derived
  view (base tiles or overlay, markers, counters, labels).
- `Optional` holds the `Option` type used for nullable values.

`Date.now()` is a parameter of the submit event. Fetch completion is an event
carrying whatever the response parsed to (a document, or `None` for a falsy
value such as `null`), or a failure event. Latitudes, longitudes, zooms
and style numbers are exact reals that are only copied or compared with constants.

Behaviour of the code that the model keeps as written:

- The submit guard is a plain empty-string test. It does no trimming, so `" "`
  is an acceptable name. It does not check coordinates either.
- Every layer choice fetches `nepal-with-provinces-acesmndr.geojson`, because the
  assignment after the `switch` overrides its choice.
- A load completion is applied whatever layer is selected when it arrives. The
  code has no request token, so it does no stale-response suppression.
- A feature whose property bag is present but empty still gets a popup, with
  empty text. Only an absent bag gets no popup.
- Ids are timestamps and are not unique. Two submissions with the same
  timestamp share an id, and one delete removes both.
- The component does not clamp zoom or centre itself. Its only zoom requests are
  7.5 and 12, both inside the configured [7.5, 13]. The centre is whatever a
  project's coordinates are.
- Cancelling the form does not clear it.
- A response that parses to `null` clears the loaded document, and the base
  tiles come back.

## Model

| member | source | states |
|---|---|---|
| Categories.ProjectIcon | components/nepal-map.tsx:54-72 | the icon for any type string equals the palette entry of the category that string names; every string outside the five keys gets the `other` colour `#6b7280` and the pushpin |
| Categories.Classify | components/nepal-map.tsx:71-72 | a key is read as the category whose key it is, and as `other` exactly when it is `other` or names none of the five |
| Categories.LookupOrOther | components/nepal-map.tsx:71-72 | the lookup returns an entry of the table, and anything other than the `other` entry only when it is the key's own entry; `ProjectIcon` states the result for the two tables |
| Categories.TooltipBorder | components/nepal-map.tsx:459-468 | the border colour is the palette colour of the category the key names, grey for unknown keys; `TooltipBorderMatchesIcon` ties it to the icon |
| Categories.ListGlyph | components/nepal-map.tsx:536-540 | the glyph is the palette emoji of the key's category when the key is one of the five, and empty otherwise; `ListGlyphMatchesIcon` ties it to the icon |
| Categories.ClassifyKey | components/nepal-map.tsx:34 | reading back a category's stored key gives that category |
| Categories.TooltipBorderMatchesIcon | components/nepal-map.tsx:459-468 | the duplicated tooltip border palette equals the icon colour for every string, including the fallback |
| Categories.ListGlyphMatchesIcon | components/nepal-map.tsx:536-540 | the sidebar glyph equals the icon emoji for the five keys, and is empty for any other string, where the icon shows the pushpin |
| Categories.PaletteColorInjective | components/nepal-map.tsx:55-61 | two categories have the same colour exactly when they are the same category |
| Features.SetStyle | components/nepal-map.tsx:217-232 | each field of the result is the patch's value when the patch has one, and the old value otherwise |
| Features.SetStyleCompose | components/nepal-map.tsx:217-232 | two successive `setStyle` calls equal one call with the combined patch, where the later patch wins |
| Features.SetStyleIdempotent | components/nepal-map.tsx:217-232 | re-applying a patch changes nothing, and an empty patch is the identity |
| Features.OnHover | components/nepal-map.tsx:217-232 | mouseover sets weight 3, colour `#666` and fill opacity 0.7; mouseout sets weight 2, colour `#2563eb` and fill opacity 0.6; neither touches opacity or fill colour |
| Features.Replay | components/nepal-map.tsx:217-232 | no mouse-event sequence ever changes a feature's opacity or fill colour |
| Features.MouseOverIdempotent | components/nepal-map.tsx:218-224 | repeated mouseovers give the same style as one |
| Features.LaterEventOverrides | components/nepal-map.tsx:217-232 | after two mouse events the style is what the later event alone gives |
| Features.ReplayLastWins | components/nepal-map.tsx:217-232 | the style after a non-empty event sequence depends only on its last event |
| Features.ReplayRestoresBase | components/nepal-map.tsx:225-241 | any sequence ending in mouseout leaves a feature drawn with `geoJSONStyle` exactly at `geoJSONStyle` |
| Features.ReplayEndsHighlighted | components/nepal-map.tsx:218-241 | any sequence ending in mouseover leaves the highlighted colour, weight and fill opacity over the base opacity and fill colour |
| Features.EntryLine | components/nepal-map.tsx:212 | an entry line is `<strong>`, then the key, then `:</strong> `, then the value, and nothing else |
| Features.Lines | components/nepal-map.tsx:211-212 | the popup lines are the property entries' lines, one per entry, in bag order |
| Features.PopupContent | components/nepal-map.tsx:210-215 | a popup is bound exactly when the property bag is present; an empty bag gives the empty string and a one-entry bag gives that entry's line |
| Features.Join | components/nepal-map.tsx:213 | joining no parts gives the empty string, and a join starts with its first part; `JoinSnoc` and `JoinLength` state the separators |
| Features.JoinSnoc | components/nepal-map.tsx:213 | joining one more part appends one separator and that part |
| Features.JoinLength | components/nepal-map.tsx:213 | joining n parts adds exactly n - 1 separators |
| Features.PopupSnoc | components/nepal-map.tsx:210-214 | adding an entry to a non-empty bag extends the popup by `<br/>` and the new line, so lines keep bag order |
| Features.PopupLength | components/nepal-map.tsx:210-214 | the popup of n entries is the n lines plus n - 1 separators long |
| Features.PopupTwoEntries | components/nepal-map.tsx:210-214 | the bag `{a: 1, b: 2}` gives two lines in key order joined by `<br/>` |
| Projects.CanSubmit | components/nepal-map.tsx:384 | submission is allowed exactly when name and district are both non-empty, with no trimming; `SubmitGuard` and `EditAndGuard` use it |
| Projects.FromForm | components/nepal-map.tsx:244-247 | the created project carries the supplied id and exactly the form's fields |
| Projects.FromFormToForm | components/nepal-map.tsx:244-247 | a project is recovered from its id and its form fields |
| Projects.RemoveId | components/nepal-map.tsx:261 | the result keeps exactly the projects whose id differs and is never longer |
| Projects.RemoveIdAppend | components/nepal-map.tsx:261 | removal distributes over concatenation, so the kept projects stay in order |
| Projects.RemoveIdLength | components/nepal-map.tsx:261 | the list shrinks by exactly the number of projects carrying the id |
| Projects.RemoveIdAbsent | components/nepal-map.tsx:261 | removing an id no project carries leaves the list unchanged |
| Projects.RemoveIdIdempotent | components/nepal-map.tsx:261 | removing the same id twice is removing it once |
| Projects.RemoveIdShrinks | components/nepal-map.tsx:261 | the list gets shorter exactly when some project carries the id |
| Layers.FetchPath | components/nepal-map.tsx:175-193 | the requested path is `/` plus a file name, and it is the switch's own choice only for the provinces layer |
| Layers.SwitchFile | components/nepal-map.tsx:175-187 | every arm names a `.geojson` file; `SwitchFileInjective` shows the three arms are distinct |
| Layers.SwitchFileInjective | components/nepal-map.tsx:175-187 | the switch maps the three layers to three distinct files |
| Layers.FetchPathIgnoresLayer | components/nepal-map.tsx:189-193 | every layer choice requests `/nepal-with-provinces-acesmndr.geojson` |
| MapPage.AddProject | components/nepal-map.tsx:243-258 | one project is appended with the given id and the form's fields, and earlier projects keep their order; the form closes and resets to the empty draft at 27.7172, 85.324 of type `other`; document, layer and viewport are unchanged |
| MapPage.DeleteProject | components/nepal-map.tsx:260-262 | only the project list changes; it keeps exactly the projects with another id and never grows |
| MapPage.ProjectClick | components/nepal-map.tsx:264-267 | the centre becomes the project's coordinates and the zoom 12, inside [7.5, 13]; nothing else changes |
| MapPage.ToggleAddProject | components/nepal-map.tsx:296 | the form's visibility flips and nothing else changes, so the typed draft survives a cancel |
| MapPage.EditForm | components/nepal-map.tsx:316-381 | each input replaces its own field of the draft and keeps the others |
| MapPage.EditAndGuard | components/nepal-map.tsx:316-384 | editing a field other than name or district leaves the submit guard as it was; editing name or district decides the guard from the new value |
| MapPage.LayerRequest | components/nepal-map.tsx:171-204 | a selector change starts a fetch exactly when it picks a layer other than the selected one, and the fetch is always for the provinces file |
| MapPage.InitialRequest | components/nepal-map.tsx:155-204 | the mount fetch requests the provinces file, not the file the switch picks for the initial `districts` layer |
| MapPage.Offered | components/nepal-map.tsx:285-530 | layer changes, the toggle and load completions are always possible; a form edit is possible exactly while the form is shown; submit exactly while the form is shown and name and district are non-empty; delete exactly when some listed project carries the id, which then removes at least one; focus exactly when the project is in the list |
| MapPage.Step | components/nepal-map.tsx:193-530 | an event applies exactly when the page offers it; the toggle flips the form, an input edit replaces its field of the draft, submit adds the draft as a project, delete filters by id and a list click focuses the project; a failed load leaves the state unchanged; a completed load stores its parsed payload whatever layer is selected; zoom stays in range; a loaded document is cleared only by a payload that parses to a falsy value |
| MapPage.NullPayloadClears | components/nepal-map.tsx:194-195 | a response that parses to `null` clears the document, and the next render shows the base tiles again |
| MapPage.Run | components/nepal-map.tsx:398-407 | over any event sequence the zoom stays in [7.5, 13] and takes only its starting value or 12; a loaded document stays loaded when no response parses to a falsy value |
| MapPage.ReachableZoom | components/nepal-map.tsx:406-407 | every reachable state requests zoom 7.5 or 12, both inside the configured range |
| MapPage.InitialState | components/nepal-map.tsx:134-168 | the first render lists the two seed projects, shows the base tiles and the closed form, and has submit disabled |
| MapPage.SubmitGuard | components/nepal-map.tsx:382-388 | submit applies exactly when the form is shown and name and district are non-empty; a name and district of one space are accepted |
| MapPage.NoStaleCheck | components/nepal-map.tsx:193-200 | a completion for an earlier selection is still applied, and of two completions the later arrival wins |
| MapPage.DeleteProperties | components/nepal-map.tsx:260-262 | delete is idempotent, a no-op for an absent id, and leaves the viewport unchanged |
| MapPage.DeleteUndoesAdd | components/nepal-map.tsx:243-262 | deleting a freshly added project's id restores the earlier list when that id was unused |
| MapPage.SameTimestampCollides | components/nepal-map.tsx:245 | two submissions with one timestamp yield two projects with the same id, and one delete removes both |
| MapPage.ToggleTwiceRestores | components/nepal-map.tsx:296 | toggling the form twice returns to the same state |
| MapPage.ClinicScenario | components/nepal-map.tsx:243-267 | submitting a filled clinic form, focusing the clinic and deleting it leaves the original list, a closed and reset form, and the viewport on the clinic at zoom 12 |
| MapPage.FormSubmission | components/nepal-map.tsx:243-391 | typing a non-empty name and district into the open form and submitting appends a project carrying the typed values over the rest of the draft and closes and resets the form; with either left empty the submit does nothing and the draft keeps what was typed |
| MapPage.OverlayPopupText | components/nepal-map.tsx:208-215 | a loaded document with the bag `{a: 1, b: 2}` and a bare feature binds the two joined lines to the first and no popup to the second |
| MapPage.MarkerFor | components/nepal-map.tsx:438-442 | a project's marker is keyed by its id, sits at its coordinates, and has the palette icon of its type with a tooltip border of the same colour |
| MapPage.DocPopups | components/nepal-map.tsx:430-436 | the overlay binds one popup slot per feature, in document order, filled exactly when the feature has properties, and each slot holds that feature's joined `<strong>key:</strong> value` popup text |
| MapPage.Render | components/nepal-map.tsx:296-540 | base tiles are shown exactly when no document is loaded; otherwise the overlay binds each feature's own popup text, and a popup exactly when the feature has properties; there is one marker per project in list order, keyed by the project's id, with the palette icon and a matching tooltip border; the toggle reads `Cancel` while the form is shown and `+ Add Project` otherwise; the counter, empty-list notice, form visibility, submit state and viewport follow the state |

## Left out

- `app/page.tsx`: a dynamic-import wrapper with no logic.
- Leaflet and react-leaflet rendering: the map container, `MapUpdater.setView`, tile and GeoJSON layers, markers, tooltips, `bindPopup`/`bindTooltip`, and the default-icon URL patch. These are foreign library calls. The model keeps only the data handed to them.
- Zoom clamping and `maxBounds` enforcement: both happen inside Leaflet, and the component issues no clamp of its own.
- The asynchronous fetch, `response.json()` and console logging: a load is one atomic success or failure event. No request token is modelled, because the code has none.
- `Date.now()`: a caller-supplied timestamp; its uniqueness is not claimed.
- `parseFloat`, `toFixed(4)`, NaN and JavaScript number stringification: coordinates, zooms and style numbers are exact reals. Property values are strings already in printed form.
- Icon and tooltip markup (sizes, rotation, shadows, keyframe animations) and the marker tooltip and marker popup text: only colour and emoji are modelled.
- MapPage.Render: the list and marker keys are `key={project.id}` (lines 440 and 528). Two projects with the same id give duplicate keys, and React's handling of such a list is not specified, so the model does not describe it.
- Parsed payloads that are truthy but are not a feature collection are not modelled. A falsy payload is `None`.
- Categories.ProjectIcon: record lookups of inherited keys such as `constructor` are not modelled. A map lookup of an unknown key simply misses.
- The emoji in the source file are garbled text encodings of U+26A1, U+1F393, U+1F3E5, U+1F3D7 U+FE0F and U+1F4CD. The model uses those code points.

=== FILE: categories.dfy ===
/** Presentation of a project's category: the marker icon colour and emoji
    (`getProjectIcon`), the tooltip border colour and the sidebar glyph. The
    source looks each of these up by the category's string key; `Palette` is the
    single per-category table the lookups are proved against. */
module Categories {

  /** The closed set of project types. */
  datatype ProjectType = Hydro | Education | Health | Infrastructure | Other {

    /** The string stored in a project's `type` field. */
    function Key(): string {
      match this
      case Hydro => "hydro"
      case Education => "education"
      case Health => "health"
      case Infrastructure => "infrastructure"
      case Other => "other"
    }
  }

  /** The parts of a marker icon the model keeps: fill colour and glyph. */
  datatype Icon = Icon(color: string, emoji: string)

  const HydroColor := "#3b82f6"
  const EducationColor := "#f59e0b"
  const HealthColor := "#ef4444"
  const InfrastructureColor := "#8b5cf6"
  const OtherColor := "#6b7280"

  const HydroEmoji := "\U{26A1}"                 // high voltage
  const EducationEmoji := "\U{1F393}"            // graduation cap
  const HealthEmoji := "\U{1F3E5}"               // hospital
  const InfrastructureEmoji := "\U{1F3D7}\U{FE0F}" // building construction
  const OtherEmoji := "\U{1F4CD}"                // round pushpin

  /** One entry per category: the per-category table. */
  function Palette(t: ProjectType): Icon {
    match t
    case Hydro => Icon(HydroColor, HydroEmoji)
    case Education => Icon(EducationColor, EducationEmoji)
    case Health => Icon(HealthColor, HealthEmoji)
    case Infrastructure => Icon(InfrastructureColor, InfrastructureEmoji)
    case Other => Icon(OtherColor, OtherEmoji)
  }

  /** The category a string key names, with every unknown key read as `Other`. */
  function Classify(key: string): (t: ProjectType)
    ensures key == t.Key() || (t == Other && forall u: ProjectType :: key != u.Key())
  {
    if key == "hydro" then Hydro
    else if key == "education" then Education
    else if key == "health" then Health
    else if key == "infrastructure" then Infrastructure
    else Other
  }

  /** `iconColors` of `getProjectIcon`, as a record keyed by type string. */
  const IconColors: map<string, string> := map[
    "hydro" := HydroColor,
    "education" := EducationColor,
    "health" := HealthColor,
    "infrastructure" := InfrastructureColor,
    "other" := OtherColor]

  /** `iconEmojis` of `getProjectIcon`. */
  const IconEmojis: map<string, string> := map[
    "hydro" := HydroEmoji,
    "education" := EducationEmoji,
    "health" := HealthEmoji,
    "infrastructure" := InfrastructureEmoji,
    "other" := OtherEmoji]

  /** `table[key] || table.other`: a missing key, or an entry that is the empty
      (falsy) string, falls back to the `other` entry. */
  function LookupOrOther(table: map<string, string>, key: string): (r: string)
    requires "other" in table
    ensures r in table.Values
    ensures r != table["other"] ==> key in table && table[key] == r
  {
    if key in table && table[key] != "" then table[key] else table["other"]
  }

  /** `getProjectIcon(type)`: total over all strings; it agrees with the palette
      entry of the category the key names, so an unknown key gets the `other` icon. */
  function ProjectIcon(key: string): (r: Icon)
    ensures r == Palette(Classify(key))
    ensures (forall t: ProjectType :: key != t.Key()) ==> r == Icon(OtherColor, OtherEmoji)
  {
    Icon(LookupOrOther(IconColors, key), LookupOrOther(IconEmojis, key))
  }

  /** The marker tooltip's border colour: a chain of `type === ...` tests ending in grey. */
  function TooltipBorder(key: string): (c: string)
    ensures c == Palette(Classify(key)).color
  {
    if key == "hydro" then "#3b82f6"
    else if key == "education" then "#f59e0b"
    else if key == "health" then "#ef4444"
    else if key == "infrastructure" then "#8b5cf6"
    else "#6b7280"
  }

  /** The sidebar glyph: five `type === X && emoji` fragments, of which at most
      one renders (a `false` fragment renders nothing). */
  function ListGlyph(key: string): (g: string)
    ensures Classify(key).Key() == key ==> g == Palette(Classify(key)).emoji
    ensures Classify(key).Key() != key ==> g == ""
  {
    (if key == "hydro" then HydroEmoji else "")
    + (if key == "education" then EducationEmoji else "")
    + (if key == "health" then HealthEmoji else "")
    + (if key == "infrastructure" then InfrastructureEmoji else "")
    + (if key == "other" then OtherEmoji else "")
  }

  /** Reading back the key of a category gives the category. */
  lemma ClassifyKey(t: ProjectType)
    ensures Classify(t.Key()) == t
  {
  }

  /** The duplicated tooltip palette agrees with the icon colour on every string,
      inside the five categories and in the fallback alike. */
  lemma TooltipBorderMatchesIcon(key: string)
    ensures TooltipBorder(key) == ProjectIcon(key).color
  {
  }

  /** The sidebar glyph is the icon emoji for each of the five keys, and is empty
      for any other string, where the marker icon falls back to the pushpin. */
  lemma ListGlyphMatchesIcon(key: string)
    ensures (exists t: ProjectType :: key == t.Key()) ==> ListGlyph(key) == ProjectIcon(key).emoji
    ensures (forall t: ProjectType :: key != t.Key()) ==> ListGlyph(key) == "" != ProjectIcon(key).emoji
  {
    if exists t: ProjectType :: key == t.Key() {
      var t: ProjectType :| key == t.Key();
      match t
      case Hydro =>
      case Education =>
      case Health =>
      case Infrastructure =>
      case Other =>
    } else {
      assert key != Hydro.Key() && key != Education.Key() && key != Health.Key();
      assert key != Infrastructure.Key() && key != Other.Key();
    }
  }

  /** Distinct categories get distinct colours, so the colour identifies the category. */
  lemma PaletteColorInjective(a: ProjectType, b: ProjectType)
    ensures Palette(a).color == Palette(b).color <==> a == b
  {
  }
}

=== FILE: features.dfy ===
/** Per-feature behaviour of the boundary overlay (`onEachFeature` and
    `geoJSONStyle`): the popup text synthesised from a feature's property bag,
    and the paint style toggled by mouse enter and exit. */
module Features {
  import opened Optional

  // ---------------------------------------------------------------- styling

  /** The path options the model tracks for one feature's layer. Numbers are
      kept as exact reals; they are only assigned and compared with constants. */
  datatype PathStyle = PathStyle(
    color: string,
    weight: real,
    opacity: real,
    fillColor: string,
    fillOpacity: real)

  /** The argument of `setStyle`: only the fields present are written. */
  datatype StylePatch = StylePatch(
    color: Option<string>,
    weight: Option<real>,
    opacity: Option<real>,
    fillColor: Option<string>,
    fillOpacity: Option<real>)

  /** The base style every feature of the overlay is drawn with. */
  const GeoJsonStyle := PathStyle("#2563eb", 2.0, 1.0, "#93c5fd", 0.6)

  /** The patch applied on mouseover. */
  const HighlightPatch := StylePatch(Some("#666"), Some(3.0), None, None, Some(0.7))

  /** The patch applied on mouseout. */
  const RestorePatch := StylePatch(Some("#2563eb"), Some(2.0), None, None, Some(0.6))

  const NoPatch: StylePatch := StylePatch(None, None, None, None, None)

  /** `setStyle`: a field-wise merge in which the patch wins where it has a value. */
  function SetStyle(s: PathStyle, p: StylePatch): (r: PathStyle)
    ensures p.color.Some? ==> r.color == p.color.value
    ensures p.color.None? ==> r.color == s.color
    ensures p.weight.Some? ==> r.weight == p.weight.value
    ensures p.weight.None? ==> r.weight == s.weight
    ensures p.opacity.Some? ==> r.opacity == p.opacity.value
    ensures p.opacity.None? ==> r.opacity == s.opacity
    ensures p.fillColor.Some? ==> r.fillColor == p.fillColor.value
    ensures p.fillColor.None? ==> r.fillColor == s.fillColor
    ensures p.fillOpacity.Some? ==> r.fillOpacity == p.fillOpacity.value
    ensures p.fillOpacity.None? ==> r.fillOpacity == s.fillOpacity
  {
    PathStyle(
      p.color.GetOr(s.color),
      p.weight.GetOr(s.weight),
      p.opacity.GetOr(s.opacity),
      p.fillColor.GetOr(s.fillColor),
      p.fillOpacity.GetOr(s.fillOpacity))
  }

  /** Two patches applied in turn act as one patch whose fields come from the
      later patch where it has them and from the earlier one otherwise. */
  function Then(p: StylePatch, q: StylePatch): StylePatch {
    StylePatch(
      if q.color.Some? then q.color else p.color,
      if q.weight.Some? then q.weight else p.weight,
      if q.opacity.Some? then q.opacity else p.opacity,
      if q.fillColor.Some? then q.fillColor else p.fillColor,
      if q.fillOpacity.Some? then q.fillOpacity else p.fillOpacity)
  }

  /** Applying patches one after another equals applying their combination. */
  lemma SetStyleCompose(s: PathStyle, p: StylePatch, q: StylePatch)
    ensures SetStyle(SetStyle(s, p), q) == SetStyle(s, Then(p, q))
  {
  }

  /** Re-applying a patch changes nothing, and the empty patch is the identity. */
  lemma SetStyleIdempotent(s: PathStyle, p: StylePatch)
    ensures SetStyle(SetStyle(s, p), p) == SetStyle(s, p)
    ensures SetStyle(s, NoPatch) == s
  {
  }

  // ------------------------------------------------------------------ hover

  datatype MouseEvent = MouseOver | MouseOut

  function PatchFor(e: MouseEvent): StylePatch {
    match e
    case MouseOver => HighlightPatch
    case MouseOut => RestorePatch
  }

  /** The style after one mouse event on a feature. */
  function OnHover(s: PathStyle, e: MouseEvent): (r: PathStyle)
    ensures e == MouseOver ==> r.weight == 3.0 && r.color == "#666" && r.fillOpacity == 0.7
    ensures e == MouseOut ==> r.weight == 2.0 && r.color == "#2563eb" && r.fillOpacity == 0.6
    ensures r.opacity == s.opacity && r.fillColor == s.fillColor
  {
    SetStyle(s, PatchFor(e))
  }

  /** The style after a sequence of mouse events, oldest first. */
  function Replay(s: PathStyle, es: seq<MouseEvent>): (r: PathStyle)
    ensures r.opacity == s.opacity && r.fillColor == s.fillColor
    decreases |es|
  {
    if es == [] then s else Replay(OnHover(s, es[0]), es[1..])
  }

  /** Repeated mouseovers produce the same style as one. */
  lemma MouseOverIdempotent(s: PathStyle)
    ensures OnHover(OnHover(s, MouseOver), MouseOver) == OnHover(s, MouseOver)
  {
  }

  /** Both patches write the same three fields, so a later event erases an earlier one. */
  lemma LaterEventOverrides(s: PathStyle, a: MouseEvent, b: MouseEvent)
    ensures OnHover(OnHover(s, a), b) == OnHover(s, b)
  {
  }

  /** Only the last event of a non-empty hover sequence matters. */
  lemma {:induction false} ReplayLastWins(s: PathStyle, es: seq<MouseEvent>)
    requires es != []
    ensures Replay(s, es) == OnHover(s, es[|es| - 1])
    decreases |es|
  {
    if |es| > 1 {
      ReplayLastWins(OnHover(s, es[0]), es[1..]);
      LaterEventOverrides(s, es[0], es[|es| - 1]);
    }
  }

  /** Any hover sequence ending in mouseout returns a feature drawn with the base
      style to exactly the base style. */
  lemma {:induction false} ReplayRestoresBase(es: seq<MouseEvent>)
    requires es != [] && es[|es| - 1] == MouseOut
    ensures Replay(GeoJsonStyle, es) == GeoJsonStyle
  {
    ReplayLastWins(GeoJsonStyle, es);
  }

  /** A hover sequence ending in mouseover leaves the feature highlighted, with the
      base opacity and fill colour. */
  lemma {:induction false} ReplayEndsHighlighted(es: seq<MouseEvent>)
    requires es != [] && es[|es| - 1] == MouseOver
    ensures Replay(GeoJsonStyle, es) == PathStyle("#666", 3.0, 1.0, "#93c5fd", 0.7)
  {
    ReplayLastWins(GeoJsonStyle, es);
  }

  // ------------------------------------------------------------------ popup

  /** A boundary feature as the overlay sees it: a property bag, possibly absent,
      whose values are already in their printed form. */
  datatype Feature = Feature(properties: Option<seq<(string, string)>>)

  const Separator := "<br/>"

  /** One popup line for a property entry. */
  function EntryLine(key: string, value: string): (line: string)
    ensures |line| == |key| + |value| + 19
    ensures line[..8] == "<strong>" && line[|line| - |value|..] == value
    ensures line[8..8 + |key|] == key && line[8 + |key|..|line| - |value|] == ":</strong> "
  {
    "<strong>" + key + ":</strong> " + value
  }

  /** `Array.prototype.join`: the parts with `sep` between neighbours. */
  function Join(parts: seq<string>, sep: string): (r: string)
    ensures parts == [] ==> r == ""
    ensures parts != [] ==> |r| >= |parts[0]| && r[..|parts[0]|] == parts[0]
    decreases |parts|
  {
    if parts == [] then ""
    else if |parts| == 1 then parts[0]
    else parts[0] + sep + Join(parts[1..], sep)
  }

  /** The sum of the lengths of the parts. */
  function TotalLength(parts: seq<string>): nat
    decreases |parts|
  {
    if parts == [] then 0 else |parts[0]| + TotalLength(parts[1..])
  }

  /** The popup lines of a property bag, in iteration order. */
  function Lines(entries: seq<(string, string)>): (lines: seq<string>)
    ensures |lines| == |entries|
    ensures forall i :: 0 <= i < |entries| ==> lines[i] == EntryLine(entries[i].0, entries[i].1)
  {
    seq(|entries|, i requires 0 <= i < |entries| => EntryLine(entries[i].0, entries[i].1))
  }

  /** The popup a feature gets bound: none for an absent bag, otherwise the joined
      lines, which is the empty string for a present but empty bag. */
  function PopupContent(f: Feature): (r: Option<string>)
    ensures r.Some? <==> f.properties.Some?
    ensures f.properties == Some([]) ==> r == Some("")
    ensures forall k, v :: f.properties == Some([(k, v)]) ==> r == Some(EntryLine(k, v))
  {
    match f.properties
    case None => None
    case Some(entries) => Some(Join(Lines(entries), Separator))
  }

  /** Joining a longer list appends one separator and the new part. */
  lemma {:induction false} JoinSnoc(parts: seq<string>, sep: string, last: string)
    requires parts != []
    ensures Join(parts + [last], sep) == Join(parts, sep) + sep + last
    decreases |parts|
  {
    if |parts| > 1 {
      assert (parts + [last])[1..] == parts[1..] + [last];
      JoinSnoc(parts[1..], sep, last);
    }
  }

  /** Joining n parts inserts exactly n - 1 separators and nothing else. */
  lemma {:induction false} JoinLength(parts: seq<string>, sep: string)
    requires parts != []
    ensures |Join(parts, sep)| == TotalLength(parts) + (|parts| - 1) * |sep|
    decreases |parts|
  {
    if |parts| > 1 {
      JoinLength(parts[1..], sep);
    }
  }

  /** Adding a property to a non-empty bag extends the popup by one separator and
      the new entry's line, so entries appear in bag order. */
  lemma PopupSnoc(entries: seq<(string, string)>, key: string, value: string)
    requires entries != []
    ensures PopupContent(Feature(Some(entries + [(key, value)])))
         == Some(PopupContent(Feature(Some(entries))).value + Separator + EntryLine(key, value))
  {
    assert Lines(entries + [(key, value)]) == Lines(entries) + [EntryLine(key, value)];
    JoinSnoc(Lines(entries), Separator, EntryLine(key, value));
  }

  /** A bag of n entries yields a popup of the n lines plus n - 1 separators. */
  lemma PopupLength(entries: seq<(string, string)>)
    requires entries != []
    ensures |PopupContent(Feature(Some(entries))).value|
         == TotalLength(Lines(entries)) + (|entries| - 1) * |Separator|
  {
    JoinLength(Lines(entries), Separator);
  }

  /** The two-property example: `{a: 1, b: 2}` gives two lines in key order. */
  lemma PopupTwoEntries()
    ensures PopupContent(Feature(Some([("a", "1"), ("b", "2")])))
         == Some("<strong>a:</strong> 1" + "<br/>" + "<strong>b:</strong> 2")
  {
    assert [("a", "1"), ("b", "2")] == [("a", "1")] + [("b", "2")];
    PopupSnoc([("a", "1")], "b", "2");
    assert PopupContent(Feature(Some([("a", "1")]))) == Some(EntryLine("a", "1"));
    EntryLineExamples();
  }

  /** The two lines of the example, spelled out. */
  lemma EntryLineExamples()
    ensures EntryLine("a", "1") == "<strong>a:</strong> 1"
    ensures EntryLine("b", "2") == "<strong>b:</strong> 2"
  {
  }
}

=== FILE: layers.dfy ===
/** Resolution of the layer selector to the boundary file that is fetched. */
module Layers {

  /** The three choices the layer selector offers. */
  datatype Layer = Basic | Districts | Provinces

  const BasicFile := "nepal-acesmndr.geojson"
  const DistrictsFile := "nepal-with-districts-acesmndr.geojson"
  const ProvincesFile := "nepal-with-provinces-acesmndr.geojson"

  /** The file the `switch` on the selected layer picks. Its `default` arm is
      unreachable, since the selector only ever yields the three choices. */
  function SwitchFile(l: Layer): (f: string)
    ensures |f| > 8 && f[|f| - 8..] == ".geojson"
  {
    match l
    case Basic => BasicFile
    case Districts => DistrictsFile
    case Provinces => ProvincesFile
  }

  /** The path actually requested: the assignment after the switch replaces its
      choice with the provinces file, whatever the layer. */
  function FetchPath(l: Layer): (path: string)
    ensures |path| > 0 && path[0] == '/'
    ensures path[1..] == SwitchFile(l) <==> l == Provinces
  {
    var fileName := ProvincesFile;
    "/" + fileName
  }

  /** The switch itself tells the three layers apart. */
  lemma SwitchFileInjective(a: Layer, b: Layer)
    ensures SwitchFile(a) == SwitchFile(b) <==> a == b
  {
  }

  /** Every layer choice leads to the same request. */
  lemma FetchPathIgnoresLayer(a: Layer, b: Layer)
    ensures FetchPath(a) == FetchPath(b) == "/" + ProvincesFile
  {
  }
}

=== FILE: map_page.dfy ===
/** The `NepalMap` page as a state machine: its state, the event handlers that
    change it, which events the page offers in a given state, and the view the
    page derives from its state on each render. */
module MapPage {
  import opened Optional
  import opened Categories
  import opened Features
  import opened Projects
  import opened Layers

  datatype LatLng = LatLng(lat: real, lng: real)

  /** A loaded boundary document: its features, in document order. */
  datatype GeoDoc = GeoDoc(features: seq<Feature>)

  /** Everything the page holds in component state. */
  datatype State = State(
    geoData: Option<GeoDoc>,
    projects: seq<Project>,
    selectedLayer: Layer,
    showAddProject: bool,
    newProject: ProjectForm,
    mapCenter: LatLng,
    mapZoom: real)

  const MinZoom := 7.5
  const MaxZoom := 13.0
  const FocusZoom := 12.0
  const DefaultCenter := LatLng(28.3949, 84.124)
  const DefaultZoom := 7.5

  /** The two projects the page starts with. */
  const SeedProjects := [
    Project(1, "Hydro Project A", "Renewable energy", "Kathmandu", 27.7172, 85.324, Hydro),
    Project(2, "School Building", "Education infrastructure", "Pokhara", 28.2096, 83.9856, Education)]

  /** The state on first render: no boundary document, districts selected, form hidden. */
  const Initial := State(None, SeedProjects, Districts, false, EmptyForm, DefaultCenter, DefaultZoom)

  /** The requested zoom lies inside the map's configured zoom range. */
  predicate ZoomInRange(s: State) {
    MinZoom <= s.mapZoom <= MaxZoom
  }

  // --------------------------------------------------------------- handlers

  /** `handleAddProject`, with `Date.now()` supplied as `now`. */
  function AddProject(s: State, now: int): (r: State)
    ensures |r.projects| == |s.projects| + 1
    ensures r.projects[..|s.projects|] == s.projects
    ensures r.projects[|s.projects|].id == now
    ensures ToForm(r.projects[|s.projects|]) == s.newProject
    ensures !r.showAddProject && r.newProject == EmptyForm
    ensures r.geoData == s.geoData && r.selectedLayer == s.selectedLayer
    ensures r.mapCenter == s.mapCenter && r.mapZoom == s.mapZoom
  {
    var project := FromForm(now, s.newProject);
    s.(projects := s.projects + [project], showAddProject := false, newProject := EmptyForm)
  }

  /** `handleDeleteProject`: drops every project carrying `id`; nothing else changes. */
  function DeleteProject(s: State, id: int): (r: State)
    ensures r == s.(projects := r.projects)
    ensures forall p :: p in r.projects <==> p in s.projects && p.id != id
    ensures |r.projects| <= |s.projects|
  {
    s.(projects := RemoveId(s.projects, id))
  }

  /** `handleProjectClick`: centre on the project at the focused zoom. */
  function ProjectClick(s: State, p: Project): (r: State)
    ensures r.mapCenter == LatLng(p.lat, p.lng) && r.mapZoom == FocusZoom
    ensures ZoomInRange(r)
    ensures r == s.(mapCenter := r.mapCenter, mapZoom := r.mapZoom)
  {
    s.(mapCenter := LatLng(p.lat, p.lng), mapZoom := 12.0)
  }

  /** The add/cancel button: flips the form's visibility and keeps what was typed. */
  function ToggleAddProject(s: State): (r: State)
    ensures r.showAddProject != s.showAddProject
    ensures r == s.(showAddProject := r.showAddProject)
  {
    s.(showAddProject := !s.showAddProject)
  }

  /** One change made through the form's inputs. */
  datatype FormEdit =
    | SetName(name: string)
    | SetDistrict(district: string)
    | SetKind(kind: ProjectType)
    | SetLat(lat: real)
    | SetLng(lng: real)
    | SetDescription(description: string)

  /** `setNewProject({ ...newProject, field: value })`: one field replaced. */
  function EditForm(f: ProjectForm, e: FormEdit): (r: ProjectForm)
    ensures e.SetName? ==> r == f.(name := e.name)
    ensures e.SetDistrict? ==> r == f.(district := e.district)
    ensures e.SetKind? ==> r == f.(kind := e.kind)
    ensures e.SetLat? ==> r == f.(lat := e.lat)
    ensures e.SetLng? ==> r == f.(lng := e.lng)
    ensures e.SetDescription? ==> r == f.(description := e.description)
  {
    match e
    case SetName(v) => ProjectForm(v, f.description, f.district, f.lat, f.lng, f.kind)
    case SetDistrict(v) => ProjectForm(f.name, f.description, v, f.lat, f.lng, f.kind)
    case SetKind(v) => ProjectForm(f.name, f.description, f.district, f.lat, f.lng, v)
    case SetLat(v) => ProjectForm(f.name, f.description, f.district, v, f.lng, f.kind)
    case SetLng(v) => ProjectForm(f.name, f.description, f.district, f.lat, v, f.kind)
    case SetDescription(v) => ProjectForm(f.name, v, f.district, f.lat, f.lng, f.kind)
  }

  /** The fetch a selector change starts. Setting the layer already selected
      does not re-run the loading effect, so it starts none; any other choice
      requests the provinces file. */
  function LayerRequest(s: State, l: Layer): (req: Option<string>)
    ensures req.Some? <==> l != s.selectedLayer
    ensures req.Some? ==> req.value == "/" + ProvincesFile
  {
    if l == s.selectedLayer then None else Some(FetchPath(l))
  }

  /** The fetch the loading effect starts when the page mounts. */
  function InitialRequest(): (req: string)
    ensures req == "/" + ProvincesFile && req[1..] != SwitchFile(Initial.selectedLayer)
  {
    FetchPath(Initial.selectedLayer)
  }

  // ----------------------------------------------------------------- events

  /** Everything that can happen to the page. A load completion carries no
      request identity: the code keeps none. Its payload is whatever the response
      parsed to, with `None` standing for a falsy JSON value such as `null`. */
  datatype Event =
    | ChangeLayer(layer: Layer)
    | ToggleForm
    | Edit(edit: FormEdit)
    | Submit(now: int)
    | Delete(id: int)
    | Focus(project: Project)
    | LoadSucceeded(data: Option<GeoDoc>)
    | LoadFailed

  /** Whether the page offers the event: form inputs and the submit button exist
      only while the form is shown, and submit is disabled unless the guard
      holds; delete buttons and list entries exist only for listed projects. */
  function Offered(s: State, e: Event): (ok: bool)
    ensures e.ChangeLayer? || e.ToggleForm? || e.LoadSucceeded? || e.LoadFailed? ==> ok
    ensures ok && e.Submit? ==> s.showAddProject && |s.newProject.name| > 0 && |s.newProject.district| > 0
    ensures ok && e.Delete? ==> |RemoveId(s.projects, e.id)| < |s.projects|
    ensures ok && e.Focus? ==> e.project in s.projects && |s.projects| > 0
    ensures e.Edit? ==> (ok <==> s.showAddProject)
    ensures e.Submit? ==> (ok <==> s.showAddProject && CanSubmit(s.newProject))
    ensures e.Delete? ==> (ok <==> exists p :: p in s.projects && p.id == e.id)
    ensures e.Focus? ==> (ok <==> e.project in s.projects)
  {
    match e
    case Edit(_) => s.showAddProject
    case Submit(_) => s.showAddProject && CanSubmit(s.newProject)
    case Delete(id) =>
      RemoveIdShrinks(s.projects, id);
      exists p :: p in s.projects && p.id == id
    case Focus(p) => p in s.projects
    case _ => true
  }

  /** The state after one event, or `None` when the page does not offer it. */
  function Step(s: State, e: Event): (r: Option<State>)
    ensures r.Some? <==> Offered(s, e)
    ensures r.Some? && ZoomInRange(s) ==> ZoomInRange(r.value)
    ensures r.Some? ==> r.value.mapZoom == s.mapZoom || r.value.mapZoom == FocusZoom
    ensures r.Some? && s.geoData.Some? && e != LoadSucceeded(None) ==> r.value.geoData.Some?
    ensures e == LoadFailed ==> r == Some(s)
    ensures e.LoadSucceeded? ==> r == Some(s.(geoData := e.data))
    ensures e.ChangeLayer? ==> r == Some(s.(selectedLayer := e.layer))
    ensures e == ToggleForm ==> r == Some(ToggleAddProject(s))
    ensures r.Some? && e.Edit? ==> r.value == s.(newProject := EditForm(s.newProject, e.edit))
    ensures r.Some? && e.Submit? ==> r.value == AddProject(s, e.now)
    ensures r.Some? && e.Delete? ==> r.value == DeleteProject(s, e.id)
    ensures r.Some? && e.Focus? ==> r.value == ProjectClick(s, e.project)
  {
    if !Offered(s, e) then None
    else
      match e
      case ChangeLayer(l) => Some(s.(selectedLayer := l))
      case ToggleForm => Some(ToggleAddProject(s))
      case Edit(edit) => Some(s.(newProject := EditForm(s.newProject, edit)))
      case Submit(now) => Some(AddProject(s, now))
      case Delete(id) => Some(DeleteProject(s, id))
      case Focus(p) => Some(ProjectClick(s, p))
      case LoadSucceeded(data) => Some(s.(geoData := data))
      case LoadFailed => Some(s)
  }

  /** The state after a sequence of events, oldest first; an event the page does
      not offer (a click on a disabled button) changes nothing. */
  function Run(s: State, es: seq<Event>): (r: State)
    ensures ZoomInRange(s) ==> ZoomInRange(r)
    ensures r.mapZoom == s.mapZoom || r.mapZoom == FocusZoom
    ensures s.geoData.Some? && NoNullPayload(es) ==> r.geoData.Some?
    decreases |es|
  {
    if es == [] then s else Run(Step(s, es[0]).GetOr(s), es[1..])
  }

  /** No load in the sequence parsed to a falsy value. */
  predicate NoNullPayload(es: seq<Event>) {
    forall i :: 0 <= i < |es| ==> es[i] != LoadSucceeded(None)
  }

  /** A response that parses to `null` clears the document, and the page falls
      back to the base tiles even after a document was shown. */
  lemma NullPayloadClears(s: State)
    ensures Step(s, LoadSucceeded(None)) == Some(s.(geoData := None))
    ensures Render(Step(s, LoadSucceeded(None)).value).baseTiles
  {
  }

  /** Every state the page can reach asks for a zoom inside the configured range,
      and only the default and focused zooms ever occur. */
  lemma ReachableZoom(es: seq<Event>)
    ensures ZoomInRange(Run(Initial, es))
    ensures Run(Initial, es).mapZoom in {DefaultZoom, FocusZoom}
  {
  }

  /** The first render: seed projects listed, base tiles shown, zoom in range. */
  lemma InitialState()
    ensures ZoomInRange(Initial) && Initial.mapZoom == MinZoom
    ensures Render(Initial).baseTiles && Render(Initial).projectCount == 2
    ensures !Render(Initial).formShown && Render(Initial).toggleLabel == "+ Add Project"
    ensures !Render(Initial).submitEnabled
  {
  }

  /** Submit is offered exactly while the form is shown with a non-empty name and
      district; whitespace counts as content, since nothing is trimmed. */
  lemma SubmitGuard(s: State, now: int)
    ensures Step(s, Submit(now)).Some?
        <==> s.showAddProject && s.newProject.name != "" && s.newProject.district != ""
    ensures s.showAddProject && s.newProject.name == " " && s.newProject.district == " "
        ==> Step(s, Submit(now)).Some?
  {
  }

  /** A completed load is applied whatever layer is selected by then: a response
      to an earlier selection replaces the document, and of two responses the one
      arriving last wins. */
  lemma NoStaleCheck(s: State, l: Layer, early: GeoDoc, late: GeoDoc)
    ensures Run(s, [ChangeLayer(l), LoadSucceeded(Some(early))]).geoData == Some(early)
    ensures Run(s, [LoadSucceeded(Some(late)), LoadSucceeded(Some(early))]).geoData == Some(early)
  {
    var a := s.(selectedLayer := l);
    assert [ChangeLayer(l), LoadSucceeded(Some(early))][1..] == [LoadSucceeded(Some(early))];
    assert Run(a, [LoadSucceeded(Some(early))]) == Run(a.(geoData := Some(early)), []);
    var b := s.(geoData := Some(late));
    assert [LoadSucceeded(Some(late)), LoadSucceeded(Some(early))][1..] == [LoadSucceeded(Some(early))];
    assert Run(b, [LoadSucceeded(Some(early))]) == Run(b.(geoData := Some(early)), []);
  }

  // ------------------------------------------------------- handler properties

  /** Deleting twice is deleting once; deleting an id no project carries changes
      nothing; the viewport, layer, document and form are left alone. */
  lemma DeleteProperties(s: State, id: int)
    ensures DeleteProject(DeleteProject(s, id), id) == DeleteProject(s, id)
    ensures (forall p :: p in s.projects ==> p.id != id) ==> DeleteProject(s, id) == s
    ensures DeleteProject(s, id).mapCenter == s.mapCenter
    ensures DeleteProject(s, id).mapZoom == s.mapZoom
  {
    RemoveIdIdempotent(s.projects, id);
    if forall p :: p in s.projects ==> p.id != id {
      RemoveIdAbsent(s.projects, id);
    }
  }

  /** Deleting after an add of the same id removes the added project and keeps
      the earlier ones in order. */
  lemma DeleteUndoesAdd(s: State, now: int)
    requires forall p :: p in s.projects ==> p.id != now
    ensures DeleteProject(AddProject(s, now), now).projects == s.projects
  {
    var added := FromForm(now, s.newProject);
    assert AddProject(s, now).projects == s.projects + [added];
    RemoveIdAppend(s.projects, [added], now);
    RemoveIdAbsent(s.projects, now);
  }

  /** Two submissions within the same millisecond get the same id, and one
      delete then removes both: ids are not unique. */
  lemma SameTimestampCollides(s: State, now: int, f1: ProjectForm, f2: ProjectForm)
    ensures var s2 := AddProject(AddProject(s.(newProject := f1), now).(newProject := f2), now);
      && |s2.projects| == |s.projects| + 2
      && s2.projects[|s.projects|].id == s2.projects[|s.projects| + 1].id == now
      && DeleteProject(s2, now).projects == RemoveId(s.projects, now)
  {
    var s2 := AddProject(AddProject(s.(newProject := f1), now).(newProject := f2), now);
    assert s2.projects == s.projects + [FromForm(now, f1), FromForm(now, f2)];
    RemoveIdAppend(s.projects, [FromForm(now, f1), FromForm(now, f2)], now);
    assert RemoveId([FromForm(now, f1), FromForm(now, f2)], now) == [];
  }

  /** Cancelling the form and opening it again shows what was typed before. */
  lemma ToggleTwiceRestores(s: State)
    ensures ToggleAddProject(ToggleAddProject(s)) == s
  {
  }

  /** Editing a field other than name or district never changes whether submit
      is enabled; editing the name or district decides it from the new value. */
  lemma EditAndGuard(f: ProjectForm, e: FormEdit)
    ensures !e.SetName? && !e.SetDistrict? ==> (CanSubmit(EditForm(f, e)) <==> CanSubmit(f))
    ensures e.SetName? ==> (CanSubmit(EditForm(f, e)) <==> e.name != "" && f.district != "")
    ensures e.SetDistrict? ==> (CanSubmit(EditForm(f, e)) <==> f.name != "" && e.district != "")
  {
  }

  /** Create, focus and delete a clinic: the list returns to what it was, the
      form is closed and reset, and the viewport stays on the clinic. */
  lemma ClinicScenario(now: int)
    requires now != 1 && now != 2
    ensures var filled := Initial.(showAddProject := true,
                                   newProject := ProjectForm("Clinic", "", "Pokhara", 28.2, 83.9, Health));
      var clinic := Project(now, "Clinic", "", "Pokhara", 28.2, 83.9, Health);
      var after := Run(filled, [Submit(now), Focus(clinic), Delete(now)]);
      && after.projects == SeedProjects
      && after.mapCenter == LatLng(28.2, 83.9) && after.mapZoom == FocusZoom
      && !after.showAddProject && after.newProject == EmptyForm
  {
    var filled := Initial.(showAddProject := true,
                           newProject := ProjectForm("Clinic", "", "Pokhara", 28.2, 83.9, Health));
    var clinic := Project(now, "Clinic", "", "Pokhara", 28.2, 83.9, Health);
    var es := [Submit(now), Focus(clinic), Delete(now)];
    var s1 := AddProject(filled, now);
    assert s1.projects == SeedProjects + [clinic];
    assert Run(filled, es) == Run(s1, es[1..]);
    var s2 := ProjectClick(s1, clinic);
    assert clinic in s1.projects;
    assert Run(s1, es[1..]) == Run(s2, es[2..]);
    var s3 := DeleteProject(s2, now);
    assert Run(s2, es[2..]) == Run(s3, []);
    DeleteUndoesAdd(filled, now);
  }

  /** Typing a name and a district into the open form and pressing submit adds a
      project carrying exactly what was typed, over the rest of the draft, and
      closes and resets the form; with either left empty the click does nothing. */
  lemma FormSubmission(s: State, n: string, d: string, now: int)
    requires s.showAddProject
    ensures var after := Run(s, [Edit(SetName(n)), Edit(SetDistrict(d)), Submit(now)]);
      && (n != "" && d != "" ==>
            && after.projects == s.projects + [Project(now, n, s.newProject.description, d,
                                                      s.newProject.lat, s.newProject.lng, s.newProject.kind)]
            && !after.showAddProject && after.newProject == EmptyForm)
      && (n == "" || d == "" ==>
            && after.projects == s.projects && after.showAddProject
            && after.newProject == s.newProject.(name := n, district := d))
  {
    var es := [Edit(SetName(n)), Edit(SetDistrict(d)), Submit(now)];
    var s1 := s.(newProject := s.newProject.(name := n));
    assert Run(s, es) == Run(s1, es[1..]);
    var s2 := s1.(newProject := s1.newProject.(district := d));
    assert Run(s1, es[1..]) == Run(s2, es[2..]);
    assert es[2..] == [Submit(now)];
    if n != "" && d != "" {
      assert Run(s2, [Submit(now)]) == AddProject(s2, now);
    } else {
      assert Run(s2, [Submit(now)]) == s2;
    }
  }

  /** The overlay of a loaded document binds each feature's joined property text:
      the example bag `{a: 1, b: 2}` gives its two lines, and a bare feature none. */
  lemma OverlayPopupText(s: State)
    ensures var doc := GeoDoc([Feature(Some([("a", "1"), ("b", "2")])), Feature(None)]);
      Render(s.(geoData := Some(doc))).overlayPopups
        == Some([Some("<strong>a:</strong> 1" + "<br/>" + "<strong>b:</strong> 2"), None])
  {
    var f := Feature(Some([("a", "1"), ("b", "2")]));
    var doc := GeoDoc([f, Feature(None)]);
    PopupTwoEntries();
    assert DocPopups(doc) == [PopupContent(f), None];
  }

  // ------------------------------------------------------------------- view

  /** A project marker: list key, position, icon and tooltip border colour. */
  datatype Marker = Marker(key: int, position: LatLng, icon: Icon, tooltipBorder: string)

  /** What one render of the page shows. */
  datatype View = View(
    baseTiles: bool,
    overlayPopups: Option<seq<Option<string>>>,
    markers: seq<Marker>,
    projectCount: nat,
    emptyListNotice: bool,
    toggleLabel: string,
    formShown: bool,
    submitEnabled: bool,
    center: LatLng,
    zoom: real)

  /** The marker a project renders as, with the icon and tooltip border its type selects. */
  function MarkerFor(p: Project): (m: Marker)
    ensures m.key == p.id && m.position == LatLng(p.lat, p.lng)
    ensures m.icon == Palette(p.kind) && m.tooltipBorder == m.icon.color
  {
    TooltipBorderMatchesIcon(p.kind.Key());
    ClassifyKey(p.kind);
    Marker(p.id, LatLng(p.lat, p.lng), ProjectIcon(p.kind.Key()), TooltipBorder(p.kind.Key()))
  }

  /** The popup each feature of the document gets bound, in document order. */
  function DocPopups(doc: GeoDoc): (popups: seq<Option<string>>)
    ensures |popups| == |doc.features|
    ensures forall i :: 0 <= i < |doc.features| ==>
      (popups[i].Some? <==> doc.features[i].properties.Some?)
    ensures forall i :: 0 <= i < |doc.features| ==> popups[i] == PopupContent(doc.features[i])
  {
    seq(|doc.features|, i requires 0 <= i < |doc.features| => PopupContent(doc.features[i]))
  }

  /** The page's render: the base tiles exactly while no document is loaded, the
      overlay with its popups otherwise, one marker per project in list order. */
  function Render(s: State): (v: View)
    ensures v.baseTiles <==> s.geoData.None?
    ensures v.overlayPopups.Some? <==> !v.baseTiles
    ensures s.geoData.Some? ==> |v.overlayPopups.value| == |s.geoData.value.features|
    ensures s.geoData.Some? ==> forall i :: 0 <= i < |s.geoData.value.features| ==>
      (v.overlayPopups.value[i].Some? <==> s.geoData.value.features[i].properties.Some?)
    ensures s.geoData.Some? ==> v.overlayPopups == Some(DocPopups(s.geoData.value))
    ensures |v.markers| == |s.projects| == v.projectCount
    ensures forall i :: 0 <= i < |s.projects| ==>
      && v.markers[i].position == LatLng(s.projects[i].lat, s.projects[i].lng)
      && v.markers[i].icon == Palette(s.projects[i].kind)
      && v.markers[i].tooltipBorder == v.markers[i].icon.color
    ensures forall i :: 0 <= i < |s.projects| ==> v.markers[i] == MarkerFor(s.projects[i])
    ensures forall i :: 0 <= i < |s.projects| ==> v.markers[i].key == s.projects[i].id
    ensures v.emptyListNotice <==> s.projects == []
    ensures v.toggleLabel == "Cancel" <==> s.showAddProject
    ensures !s.showAddProject ==> v.toggleLabel == "+ Add Project"
    ensures v.formShown == s.showAddProject
    ensures v.submitEnabled <==> s.newProject.name != "" && s.newProject.district != ""
    ensures v.center == s.mapCenter && v.zoom == s.mapZoom
  {
    View(
      s.geoData.None?,
      if s.geoData.Some? then Some(DocPopups(s.geoData.value)) else None,
      seq(|s.projects|, i requires 0 <= i < |s.projects| => MarkerFor(s.projects[i])),
      |s.projects|,
      |s.projects| == 0,
      if s.showAddProject then "Cancel" else "+ Add Project",
      s.showAddProject,
      CanSubmit(s.newProject),
      s.mapCenter,
      s.mapZoom)
  }
}

=== FILE: optional.dfy ===
/** The absent-or-present wrapper used for nullable values of the map page:
    a feature's property bag, the loaded boundary document, a style patch field. */
module Optional {

  datatype Option<+T> = None | Some(value: T) {

    /** The wrapped value, or `default` when absent. */
    function GetOr(default: T): T {
      match this
      case Some(v) => v
      case None => default
    }
  }
}

=== FILE: projects.dfy ===
/** The project records and the creation form: the submit guard, the record a
    submission creates, and removal by id. */
module Projects {
  import opened Categories

  /** A point of interest. `id` is a caller-supplied timestamp and is not
      guaranteed unique; coordinates are only copied, never range-checked. */
  datatype Project = Project(
    id: int,
    name: string,
    description: string,
    district: string,
    lat: real,
    lng: real,
    kind: ProjectType)

  /** The creation form's fields: a project without its id. */
  datatype ProjectForm = ProjectForm(
    name: string,
    description: string,
    district: string,
    lat: real,
    lng: real,
    kind: ProjectType)

  /** The form as it starts, and as every submission leaves it. */
  const EmptyForm := ProjectForm("", "", "", 27.7172, 85.324, Other)

  /** The submit button is enabled exactly when neither the name nor the
      district is the empty string; nothing is trimmed and coordinates are not checked. */
  function CanSubmit(f: ProjectForm): (ok: bool)
    ensures ok <==> |f.name| > 0 && |f.district| > 0
  {
    !(f.name == "" || f.district == "")
  }

  /** `{ id, ...form }`: the record a submission creates. */
  function FromForm(id: int, f: ProjectForm): (p: Project)
    ensures p.id == id && ToForm(p) == f
  {
    Project(id, f.name, f.description, f.district, f.lat, f.lng, f.kind)
  }

  /** The form fields a project carries. */
  function ToForm(p: Project): ProjectForm {
    ProjectForm(p.name, p.description, p.district, p.lat, p.lng, p.kind)
  }

  /** A project is its id together with its form fields. */
  lemma FromFormToForm(p: Project)
    ensures FromForm(p.id, ToForm(p)) == p
  {
  }

  /** `projects.filter(p => p.id !== id)`. */
  function RemoveId(ps: seq<Project>, id: int): (r: seq<Project>)
    ensures |r| <= |ps|
    ensures forall p :: p in r <==> p in ps && p.id != id
    decreases |ps|
  {
    if ps == [] then []
    else if ps[0].id == id then RemoveId(ps[1..], id)
    else [ps[0]] + RemoveId(ps[1..], id)
  }

  /** The number of projects carrying `id`. */
  function CountId(ps: seq<Project>, id: int): nat
    decreases |ps|
  {
    if ps == [] then 0 else (if ps[0].id == id then 1 else 0) + CountId(ps[1..], id)
  }

  /** Removal keeps the relative order: it distributes over concatenation. */
  lemma {:induction false} RemoveIdAppend(a: seq<Project>, b: seq<Project>, id: int)
    ensures RemoveId(a + b, id) == RemoveId(a, id) + RemoveId(b, id)
    decreases |a|
  {
    if a != [] {
      assert (a + b)[1..] == a[1..] + b;
      RemoveIdAppend(a[1..], b, id);
    } else {
      assert a + b == b;
    }
  }

  /** Exactly the projects carrying `id` are dropped. */
  lemma {:induction false} RemoveIdLength(ps: seq<Project>, id: int)
    ensures |RemoveId(ps, id)| == |ps| - CountId(ps, id)
    decreases |ps|
  {
    if ps != [] {
      RemoveIdLength(ps[1..], id);
    }
  }

  /** Removing an id no project carries changes nothing. */
  lemma {:induction false} RemoveIdAbsent(ps: seq<Project>, id: int)
    requires forall p :: p in ps ==> p.id != id
    ensures RemoveId(ps, id) == ps
    decreases |ps|
  {
    if ps != [] {
      assert ps[0] in ps;
      assert forall p :: p in ps[1..] ==> p in ps;
      RemoveIdAbsent(ps[1..], id);
      assert [ps[0]] + ps[1..] == ps;
    }
  }

  /** Removing the same id twice is removing it once. */
  lemma RemoveIdIdempotent(ps: seq<Project>, id: int)
    ensures RemoveId(RemoveId(ps, id), id) == RemoveId(ps, id)
  {
    RemoveIdAbsent(RemoveId(ps, id), id);
  }

  /** The list shrinks exactly when some project carries the id. */
  lemma RemoveIdShrinks(ps: seq<Project>, id: int)
    ensures |RemoveId(ps, id)| < |ps| <==> exists p :: p in ps && p.id == id
  {
    if exists p :: p in ps && p.id == id {
      var p :| p in ps && p.id == id;
      CountIdPositive(ps, p);
      RemoveIdLength(ps, id);
    } else {
      RemoveIdAbsent(ps, id);
    }
  }

  lemma {:induction false} CountIdPositive(ps: seq<Project>, p: Project)
    requires p in ps
    ensures CountId(ps, p.id) > 0
    decreases |ps|
  {
    if ps[0] != p {
      assert p in ps[1..];
      CountIdPositive(ps[1..], p);
    }
  }
}
